=== FILE: README.md ===
# Activity logging, user observer and panel access — a Dafny model

This project models the audit-logging core of a Laravel/Filament application:

- **Access logging** (`ActivityLoggerService::logAccess`). Each `logAccess` call writes at most one
  entry on the `access` log. An authenticated user is throttled to one entry per 300 seconds by a cache mark
  `access_log_throttle:{id}`. The entry carries a visitor label (`bot`, `authenticated_user` or
  `anonymous_visitor`) and the request's device record.
- **Device records** (`getDeviceDetails`, `getCachedDeviceDetails`). These are memoised in the
  application cache for 86400 seconds per (user agent, mode). Authenticated requests skip bot
  detection and get a fixed "Unknown, not a bot" record. Anonymous requests go through the
  device-detection library.
- **Entity events** (`ActivityLoggerService::default`). Each writes one entry on the `default` log with
  the model's current attributes. For `updated` it also records the original values of the changed
  attributes.
- **The user observer** (`UserObserver`). It maps each lifecycle hook to zero or one logger call. It
  suppresses the `updated` hook of a restore and the `deleted` hook of a permanent delete.
- **Panel access** (`User::canAccessPanel`), the avatar accessor, and the role/permission seed table
  (`RolePermissionSeeder`).

The model is functional. The application cache is a value (`ActivityLogger.Cache`) and the clock is a
parameter `now`, in seconds. An entry is live while `now` is strictly before its expiry. The current
user is `user: Option<UserId>`, and the request is authenticated exactly when it is `Some`. The
device-detection library is a parameter `parse: string -> Parsed`. The log sink receives the `emitted`
entries of each `Step`, in order. The one shared cache is split into two typed stores: throttle marks by
user id, and device records by (user agent, mode). `CacheKeys` proves that the key texts of the two
stores never collide: `access_log_throttle:{id}` and `device_details:{md5}:{auth|anon}` differ across
the namespaces, and the two modes never share a device key, whatever the digest is. The split also takes
MD5 to be injective (see "Left out").

The state invariant `ActivityLogger.Valid` (`Device.Coherent`) says that every cached device record is
what a cache miss would compute for its key, except for the client address of the request that filled
it. Every operation preserves it. Under it, an authenticated request's entry is never labelled `bot`: the
bot branch of the visitor label is dead for authenticated users, which is what the code's optimisation
comment intends.

Three facts about the code that the model keeps as they are:
- `getCachedDeviceDetails` has no fallback record and there is no `try`/`catch`.
- The permanent-delete event is the literal string `force_deleted`.
- The skip-detection record has `device_name = "Unknown"`, and every other optional field is null.

## Model

| member | source | states |
|---|---|---|
| TtlCache.Put | app/Services/ActivityLoggerService.php:84 | After a put with TTL `ttl` at `now`, the key is live exactly at the instants before `now + ttl`. This holds whatever entry was there before, so re-putting restarts the window. No other key changes. |
| TtlCache.Remember | app/Services/ActivityLoggerService.php:139 | Computation happens exactly when the key is not live. A live entry is returned as stored, with the store untouched. On a miss the computed value is stored for `ttl`. Afterwards the key is live and holds the returned value. |
| TtlCache.RememberAgainHits | app/Services/ActivityLoggerService.php:139 | A second `remember` while the first result is live returns the same value and leaves the store unchanged. It computes nothing, whatever the second computation would have given. |
| TtlCache.RememberedLiveForTtl | app/Services/ActivityLoggerService.php:139 | A value stored on a miss at `now` is live at a later instant iff that instant is before `now + ttl`. |
| CacheKeys.ThrottleKeyInjective | app/Services/ActivityLoggerService.php:72 | Two user ids share a throttle key iff they are the same id. |
| CacheKeys.NamespacesDisjoint | app/Services/ActivityLoggerService.php:137 | A device key text never equals a throttle key text. |
| CacheKeys.DeviceKeyInjective | app/Services/ActivityLoggerService.php:137 | Device key texts are equal iff digest and mode are equal. The `auth` and `anon` records of one user agent therefore never share an entry, whatever the digest function. |
| Device.GetCachedDeviceDetails | app/Services/ActivityLoggerService.php:134-173 | A hit returns the stored record unchanged, `ip` included, without parsing, and leaves the cache alone. A miss computes the record, stores it for 86400 s, and runs the parser iff detection is not skipped. No other key changes. The cache invariant is preserved. In skip mode the record is "not a bot, this user agent, device Unknown, all else null". |
| Device.GetDeviceDetails | app/Services/ActivityLoggerService.php:117-129 | A missing User-Agent reads as `"Unknown"`. The parser never runs for an authenticated request. Under the invariant, an authenticated request gets the skip record for its user agent. |
| Device.LookupAgainSameInstant | app/Services/ActivityLoggerService.php:137-139 | Within one request, a second `getDeviceDetails` for the same user agent returns the first lookup's record and leaves the cache as the first lookup left it, without parsing. |
| Device.RepeatLookupHits | app/Services/ActivityLoggerService.php:137-139 | While the first record is live, a second lookup of the same (user agent, mode) returns the identical record, even from another client address. It does not parse and does not change the cache. |
| Device.MissServedForTtl | app/Services/ActivityLoggerService.php:21 | A record computed on a miss is served without parsing for the next 86400 s. So detection runs at most once per (user agent, mode) in that window. |
| Device.ModesKeptApart | app/Services/ActivityLoggerService.php:137 | A lookup in one mode leaves the other mode's record for the same user agent exactly as it was. |
| ActivityLogger.ShouldLogAccess | app/Services/ActivityLoggerService.php:70-75 | True iff the user has no throttle mark or the mark has expired. Once true, it stays true at every later instant until a new mark is written. |
| ActivityLogger.MarkAccessLogged | app/Services/ActivityLoggerService.php:80-85 | After marking at `now`, `shouldLogAccess` for that user is true exactly from `now + 300` on, whatever mark existed before. Other users' throttle answers and the device records are unchanged. |
| ActivityLogger.ClassifyVisitor | app/Services/ActivityLoggerService.php:44 | The label is `bot` iff the record says bot. It is `authenticated_user` iff not a bot and a user is present. It is `anonymous_visitor` iff neither. |
| ActivityLogger.LabelsAreLiterals | app/Services/ActivityLoggerService.php:44-46 | The written label is the string `bot`, `authenticated_user` or `anonymous_visitor` under exactly those conditions. The log names `access` and `default` each identify their channel. |
| ActivityLogger.LogAccess | app/Services/ActivityLoggerService.php:31-65 | A throttled authenticated user produces no entry and an unchanged cache. Otherwise exactly one `access` entry is emitted, carrying the request's URL, method, path, query, referrer, status, causer and label. The entry's device is the record `getDeviceDetails` returns, and the device cache afterwards is that lookup's cache, so memoisation carries through. The throttle store changes only by the user's fresh 300 s mark, and only when an entry was emitted for an authenticated user. The invariant is preserved. |
| ActivityLogger.AuthenticatedEntryNeverBot | app/Services/ActivityLoggerService.php:122-124 | Under the cache invariant, an authenticated user's entry is labelled `authenticated_user`, has `is_bot` false and carries the skip record. |
| ActivityLogger.AnonymousBotLabelled | app/Services/ActivityLoggerService.php:40-44 | An anonymous request whose user agent the detector calls a bot is labelled `bot` with `is_bot` true. |
| ActivityLogger.AnonymousIgnoresThrottle | app/Services/ActivityLoggerService.php:36 | For an anonymous request, the entry and the resulting device cache do not depend on the throttle marks, and no mark is written. |
| ActivityLogger.ThrottleWindow | app/Services/ActivityLoggerService.php:36-64 | A user who is logged at `t0` is not logged again before `t0 + 300`, and the cache is unchanged then. The user is logged again from `t0 + 300` on. |
| ActivityLogger.OldValues | app/Services/ActivityLoggerService.php:90-96 | For `updated`, the keys of `old` are exactly the original keys that are also changed keys, with their original values. For any other event `old` is empty. |
| ActivityLogger.LogDefault | app/Services/ActivityLoggerService.php:87-107 | Exactly one `default` entry is emitted, with the given event, message, causer and subject. Its `attributes` are the model's current attributes and its `old` is as above. The entry's device is the record `getDeviceDetails` returns, and the device cache afterwards is that lookup's cache. The throttle marks are untouched. For an authenticated user the device is the skip record. |
| ActivityLogger.OldValuesExample | app/Services/ActivityLoggerService.php:92-95 | With `a`, `b` changed and `c` not, `old` is `{a, b}` with their prior values, even though `b` kept its value. For `created` it is empty. |
| UserObserver.Observe | app/Observers/UserObserver.php:14-48 | A hook makes no call iff it is `updated` on a restore save (`deleted_at` changed and now null) or `deleted` during a force delete. Otherwise it makes one call with the hook's own event name (`created`, `updated`, `deleted`, `restored`, `force_deleted`), its message prefix plus the user's name, and the model. |
| UserObserver.EventNamesDistinct | app/Observers/UserObserver.php:17-47 | Distinct hooks report distinct event names. |
| UserObserver.Calls | app/Observers/UserObserver.php:14-48 | A sequence of hooks makes at most one logger call per hook, and exactly one per hook when no hook is suppressed. |
| UserObserver.Dispatch | app/Observers/UserObserver.php:17-47 | A suppressed hook does nothing: no entry and the cache exactly as it was. Otherwise it writes one `default` entry, with the call's event and message, the acting user as causer, the observed user as subject, the current time, the user's current attributes, and for `updated` the prior values of the changed attributes. Its device record is the one `getDeviceDetails` returns, and the device cache afterwards is that lookup's cache. Under the invariant the device record is what detection gives for the request's user agent and mode. The throttle marks stay unchanged. |
| UserObserver.Fire | app/Observers/UserObserver.php:14-48 | Hooks fired in one request emit exactly one `default`-channel entry per logger call, in order. Each entry has its call's event, message, subject (the observed user), attributes and prior values, with the acting user as causer. If no hook calls the logger, the cache is exactly as it was. Otherwise the device cache afterwards is that of the request's first `getDeviceDetails` lookup, and every entry carries that lookup's record, since later lookups in the request are hits. Under the invariant each device record fits the request's user agent and mode. The throttle marks are untouched and the invariant is preserved. |
| UserObserver.UpdateLoggedWithPriorValues | app/Observers/UserObserver.php:20-27 | An ordinary update yields one entry whose subject is the updated user, with its current attributes and the prior values of exactly the changed attributes. |
| UserObserver.RestoreLoggedOnce | app/Observers/UserObserver.php:20-42 | A restore (`updated` on the restore save, then `restored`) yields exactly one entry, `restored`. |
| UserObserver.ForceDeleteLoggedOnce | app/Observers/UserObserver.php:29-48 | A permanent delete (`deleted` while force-deleting, then `forceDeleted`) yields exactly one entry, `force_deleted`. |
| User.CanAccessPanel | app/Models/User.php:51-62 | Access is granted iff the user is a Super Admin, or the panel is `admin` or `citizen` and the user holds that panel's access permission. |
| User.OnlyKnownPanels | app/Models/User.php:57-61 | For a user who is not a Super Admin, only `admin` and `citizen` can open, and each opens only through its own permission. |
| User.AvatarUrl | app/Models/User.php:46-49 | The avatar URL is absent iff `profile_picture` is null or missing. Otherwise it is the stored picture. |
| RolePermissionSeeder.AssignRoles | database/seeders/RolePermissionSeeder.php:58-60 | Role assignment succeeds iff every listed email has an account. A missing one is the null-lookup error. On success each account's roles are its old roles plus exactly the roles listed for its email. |
| RolePermissionSeeder.ThreeRoles | database/seeders/RolePermissionSeeder.php:18-25 | Exactly three distinct roles are created. |
| RolePermissionSeeder.ElevenPermissions | database/seeders/RolePermissionSeeder.php:27-48 | Three panel permissions and eight user permissions are created, eleven in all, and all distinct. |
| RolePermissionSeeder.GrantTable | database/seeders/RolePermissionSeeder.php:50-56 | Super Admin holds exactly the created permissions. Admin holds exactly `{access_admin_panel, view_any_users, view_users}` and Citizen exactly `{access_citizen_panel}`. No role holds a permission that was not created. |
| RolePermissionSeeder.SeededPanelAccess | database/seeders/RolePermissionSeeder.php:54-56 | With the seeded grants, a Super Admin opens every panel. An Admin opens `admin` but not `citizen`. A Citizen opens `citizen` but not `admin`. |
| RolePermissionSeeder.SeededAssignments | database/seeders/RolePermissionSeeder.php:58-60 | The seed list names only the three seeded emails, and gives each exactly one role: Super Admin, Admin and Citizen respectively. |
| RolePermissionSeeder.SeededAccountsRoles | database/seeders/RolePermissionSeeder.php:58-60 | Seeding three role-less accounts gives superadmin, admin and ciudadano exactly Super Admin, Admin and Citizen, with the panel access above. |

## Left out

- The device-detection library's parse is left out because it is foreign code. It is the parameter `parse`, a deterministic function from user agent to a `Parsed` record, and its `os`/`client` answers are flattened to optional strings. `getUserAgent()` is taken to return the user agent it was given.
- MD5 is not modelled. The device key is the pair (user agent, mode), which takes the digest to be injective. `CacheKeys` shows that mode separation does not depend on the digest.
- The framework is abstracted away as parameters or values: the `Auth`, `Cache` and `request()` facades, Spatie `activity()`, `hasRole`/`can`, and Eloquent `getOriginal`/`getChanges`/`wasChanged`/`isForceDeleting`. `can` is the set `RolePermissions(roles)`, with no direct permissions and no gate hooks.
- The commented-out security-event and IP-blocklist code of `ActivityLoggerService` is left out because it is dead code.
- Concurrency and cache races are left out. Calls are modelled one after another.
- TtlCache.Put requires a positive TTL. The framework's deletion on a non-positive TTL is left out, because the code only uses the constants 300 and 86400.
- TtlCache.Remember treats any live entry as a hit. The framework also recomputes when the stored value is null, but the logger never stores null.
- Eloquent persistence details are left out: UUIDs, casts, password hashing, date format, `$fillable`/`$hidden`. Attribute values are the raw column text or null.
- The seeder's database writes, `forgetCachedPermissions`, and the duplicate-name errors of role/permission creation are left out. The seeder is modelled as constant tables run on a fresh database.
- Failures are not modelled: `parse` always returns and the cache is always available. In the code an exception from `Cache::has`, `Cache::remember` or the detector ends `logAccess` or `default` with no entry and no mark written.
- Timestamps of log entries are the model clock `now`.

=== FILE: activity_logger.dfy ===
/** The activity logger: one `access` entry per HTTP request (throttled to one
    per five minutes for an authenticated user) and one `default` entry per
    model lifecycle event. The application cache is explicit state, the clock is
    the `now` parameter, the current user is `user` (none when anonymous), the
    device-detection library is `parse`, and the log sink receives the
    `emitted` entries of each step in order. */
module ActivityLogger {
  import opened Base
  import opened TtlCache
  import opened Device
  import opened Models

  type UserId = string

  /** Five minutes. */
  const AccessLogThrottle: Ttl := 300

  /** The shared application cache, split by key namespace (see CacheKeys):
      throttle marks by user id, device records by (user agent, mode). */
  datatype Cache = Cache(throttle: Store<UserId, bool>, devices: DeviceCache)

  /** The log name an entry is written under. */
  datatype Channel = AccessChannel | DefaultChannel {
    function Name(): string {
      match this
      case AccessChannel => "access"
      case DefaultChannel => "default"
    }
  }

  datatype VisitorType = Bot | AuthenticatedUser | AnonymousVisitor {
    function Label(): string {
      match this
      case Bot => "bot"
      case AuthenticatedUser => "authenticated_user"
      case AnonymousVisitor => "anonymous_visitor"
    }
  }

  /** The parts of the HTTP request the logger reads. */
  datatype Request = Request(
    httpMethod: string,
    path: string,
    fullUrl: string,
    query: map<string, string>,
    referer: Option<string>,
    userAgent: Option<string>,
    ip: string)

  /** The model an entity entry is about. */
  datatype SubjectRef = SubjectRef(morphClass: string, key: string)

  datatype Properties =
    | AccessProperties(
        visitorType: VisitorType,
        isBot: bool,
        url: string,
        httpMethod: string,
        path: string,
        queryParams: map<string, string>,
        referrer: Option<string>,
        statusCode: int,
        device: DeviceDetails)
    | EntityProperties(
        attributes: map<string, Value>,
        oldValues: map<string, Value>,
        device: DeviceDetails)

  datatype LogEntry = LogEntry(
    channel: Channel,
    description: string,
    event: Option<string>,
    causer: Option<UserId>,
    subject: Option<SubjectRef>,
    properties: Properties,
    at: Time)

  /** The cache after an operation and the entries it handed to the log sink. */
  datatype Step = Step(cache: Cache, emitted: seq<LogEntry>)

  /** The state invariant: cached device records are what detection gives. */
  ghost predicate Valid(c: Cache, parse: string -> Parsed) {
    Coherent(c.devices, parse)
  }

  // ---------------------------------------------------------------- throttle

  /** `shouldLogAccess`: no live throttle mark for the user. */
  function ShouldLogAccess(c: Cache, now: Time, userId: UserId): (r: bool)
    ensures r <==> userId !in c.throttle || c.throttle[userId].expiresAt <= now
    ensures r ==> forall t | t >= now :: !Live(c.throttle, userId, t)
  {
    !Live(c.throttle, userId, now)
  }

  /** `markAccessLogged`: (re)writes the user's mark, restarting the window at
      `now` whatever mark was there before. */
  function MarkAccessLogged(c: Cache, now: Time, userId: UserId): (r: Cache)
    ensures forall t :: ShouldLogAccess(r, t, userId) <==> t >= now + AccessLogThrottle
    ensures forall other, t | other != userId :: ShouldLogAccess(r, t, other) == ShouldLogAccess(c, t, other)
    ensures r.devices == c.devices
  {
    var throttle := Put(c.throttle, userId, true, AccessLogThrottle, now);
    assert forall other | other != userId :: other in c.throttle <==> other in c.throttle - {userId};
    assert forall other | other != userId :: other in throttle <==> other in throttle - {userId};
    c.(throttle := throttle)
  }

  // ------------------------------------------------------------ access entries

  /** The visitor label: the detector's verdict first, then authentication. */
  function ClassifyVisitor(isBot: bool, authenticated: bool): (v: VisitorType)
    ensures v == Bot <==> isBot
    ensures v == AuthenticatedUser <==> !isBot && authenticated
    ensures v == AnonymousVisitor <==> !isBot && !authenticated
  {
    if isBot then Bot else if authenticated then AuthenticatedUser else AnonymousVisitor
  }

  /** The labels and log names written to the sink are the application's
      literal strings, and each determines the value it names. */
  lemma {:induction false} LabelsAreLiterals(isBot: bool, authenticated: bool, ch: Channel)
    ensures ClassifyVisitor(isBot, authenticated).Label() == "bot" <==> isBot
    ensures ClassifyVisitor(isBot, authenticated).Label() == "authenticated_user" <==> !isBot && authenticated
    ensures ClassifyVisitor(isBot, authenticated).Label() == "anonymous_visitor" <==> !isBot && !authenticated
    ensures ch.Name() == "access" <==> ch == AccessChannel
    ensures ch.Name() == "default" <==> ch == DefaultChannel
  {
    var text := ClassifyVisitor(isBot, authenticated).Label();
    assert text[0] == 'b' <==> isBot;
    assert text[1] == 'u' <==> !isBot && authenticated;
    assert ch.Name()[0] == 'a' <==> ch == AccessChannel;
  }

  function AccessDescription(req: Request): string {
    "Access: " + req.httpMethod + " " + req.path
  }

  /** The `access` entry for a request whose device record is `d`. */
  function AccessEntry(now: Time, user: Option<UserId>, req: Request, statusCode: int,
                       d: DeviceDetails): LogEntry {
    LogEntry(AccessChannel, AccessDescription(req), None, user, None,
             AccessProperties(ClassifyVisitor(d.isBot, user.Some?), d.isBot, req.fullUrl,
                              req.httpMethod, req.path, req.query, req.referer, statusCode, d),
             now)
  }

  /** The record describing one access entry, as the sink receives it. */
  predicate IsAccessEntry(e: LogEntry, now: Time, user: Option<UserId>, req: Request, statusCode: int) {
    && e.channel == AccessChannel
    && e.description == AccessDescription(req)
    && e.event == None && e.subject == None
    && e.causer == user && e.at == now
    && e.properties.AccessProperties?
    && e.properties.isBot == e.properties.device.isBot
    && e.properties.visitorType == ClassifyVisitor(e.properties.isBot, user.Some?)
    && e.properties.url == req.fullUrl && e.properties.httpMethod == req.httpMethod
    && e.properties.path == req.path && e.properties.queryParams == req.query
    && e.properties.referrer == req.referer && e.properties.statusCode == statusCode
  }

  /** `logAccess`. */
  function LogAccess(c: Cache, now: Time, user: Option<UserId>, req: Request, statusCode: int,
                     parse: string -> Parsed): (r: Step)
    ensures user.Some? && !ShouldLogAccess(c, now, user.value) ==> r == Step(c, [])
    ensures user.None? || ShouldLogAccess(c, now, user.value) ==>
              |r.emitted| == 1 && IsAccessEntry(r.emitted[0], now, user, req, statusCode)
    ensures r.cache.throttle ==
              if user.Some? && |r.emitted| == 1
              then Put(c.throttle, user.value, true, AccessLogThrottle, now)
              else c.throttle
    ensures Valid(c, parse) ==> Valid(r.cache, parse)
    ensures Valid(c, parse) && |r.emitted| == 1 ==>
              r.emitted[0].properties.device.userAgent == req.userAgent.GetOr(UnknownUserAgent)
    ensures var lookup := GetDeviceDetails(c.devices, now, req.userAgent, user.Some?, req.ip, parse);
            |r.emitted| == 1 ==> r.emitted[0].properties.device == lookup.details
                                 && r.cache.devices == lookup.cache
  {
    if user.Some? && !ShouldLogAccess(c, now, user.value) then
      Step(c, [])
    else
      var lookup := GetDeviceDetails(c.devices, now, req.userAgent, user.Some?, req.ip, parse);
      var entry := AccessEntry(now, user, req, statusCode, lookup.details);
      var c1 := c.(devices := lookup.cache);
      var c2 := if user.Some? then MarkAccessLogged(c1, now, user.value) else c1;
      Step(c2, [entry])
  }

  /** An authenticated user's entry is never labelled `bot`: detection is
      skipped for authenticated requests, so the bot branch of the label is
      unreachable for them. */
  lemma AuthenticatedEntryNeverBot(c: Cache, now: Time, userId: UserId, req: Request, statusCode: int,
                                   parse: string -> Parsed)
    requires Valid(c, parse)
    ensures var r := LogAccess(c, now, Some(userId), req, statusCode, parse);
            forall e | e in r.emitted ::
              && e.properties.visitorType == AuthenticatedUser
              && !e.properties.isBot
              && IsSkipRecord(e.properties.device, req.userAgent.GetOr(UnknownUserAgent))
  {
  }

  /** An anonymous request whose user agent the detector calls a bot is logged
      as a `bot` visit. */
  lemma AnonymousBotLabelled(c: Cache, now: Time, req: Request, statusCode: int, parse: string -> Parsed)
    requires Valid(c, parse)
    requires parse(req.userAgent.GetOr(UnknownUserAgent)).isBot
    ensures var r := LogAccess(c, now, None, req, statusCode, parse);
            r.emitted[0].properties.visitorType == Bot && r.emitted[0].properties.isBot
  {
  }

  /** Anonymous traffic never consults the throttle: the entry and the device
      cache afterwards do not depend on any throttle mark, and no mark is written. */
  lemma AnonymousIgnoresThrottle(c1: Cache, c2: Cache, now: Time, req: Request, statusCode: int,
                                 parse: string -> Parsed)
    requires c1.devices == c2.devices
    ensures var r1 := LogAccess(c1, now, None, req, statusCode, parse);
            var r2 := LogAccess(c2, now, None, req, statusCode, parse);
            r1.emitted == r2.emitted && r1.cache.devices == r2.cache.devices
            && r1.cache.throttle == c1.throttle && r2.cache.throttle == c2.throttle
  {
  }

  /** An authenticated user who was just logged is not logged again for the
      next 300 seconds, whatever they request, and is logged again from then on. */
  lemma ThrottleWindow(c: Cache, t0: Time, t1: Time, userId: UserId, req0: Request, req1: Request,
                       status0: int, status1: int, parse: string -> Parsed)
    requires ShouldLogAccess(c, t0, userId)
    requires t0 <= t1
    ensures var first := LogAccess(c, t0, Some(userId), req0, status0, parse);
            var second := LogAccess(first.cache, t1, Some(userId), req1, status1, parse);
            |first.emitted| == 1
            && (t1 < t0 + AccessLogThrottle ==> second.emitted == [] && second.cache == first.cache)
            && (t1 >= t0 + AccessLogThrottle ==> |second.emitted| == 1)
  {
  }

  // ------------------------------------------------------------ entity entries

  /** The `old` property: for `updated`, the original values of exactly the
      changed attributes (keyed by the changed set, whether or not the value
      differs); for every other event, empty. */
  function OldValues(event: string, original: map<string, Value>, changes: map<string, Value>)
    : (prior: map<string, Value>)
    ensures event == "updated" ==> forall k :: k in prior <==> k in original && k in changes
    ensures forall k | k in prior :: k in original && prior[k] == original[k]
    ensures event != "updated" ==> prior == map[]
  {
    if event == "updated" then map k | k in original && k in changes :: original[k] else map[]
  }

  /** `default(event, message, model)`. */
  function LogDefault(c: Cache, now: Time, user: Option<UserId>, req: Request, event: string,
                      message: string, m: Model, parse: string -> Parsed): (r: Step)
    ensures |r.emitted| == 1
    ensures var e := r.emitted[0];
            && e.channel == DefaultChannel
            && e.event == Some(event) && e.description == message
            && e.causer == user && e.subject == Some(SubjectRef(m.morphClass, m.key)) && e.at == now
            && e.properties.EntityProperties?
            && e.properties.attributes == m.attributes
            && e.properties.oldValues == OldValues(event, m.original, m.changes)
    ensures r.cache.throttle == c.throttle
    ensures Valid(c, parse) ==> Valid(r.cache, parse)
    ensures Valid(c, parse) && user.Some? ==>
              IsSkipRecord(r.emitted[0].properties.device, req.userAgent.GetOr(UnknownUserAgent))
    ensures var lookup := GetDeviceDetails(c.devices, now, req.userAgent, user.Some?, req.ip, parse);
            r.emitted[0].properties.device == lookup.details && r.cache.devices == lookup.cache
  {
    var lookup := GetDeviceDetails(c.devices, now, req.userAgent, user.Some?, req.ip, parse);
    var entry := LogEntry(DefaultChannel, message, Some(event), user, Some(SubjectRef(m.morphClass, m.key)),
                          EntityProperties(m.attributes, OldValues(event, m.original, m.changes), lookup.details),
                          now);
    Step(c.(devices := lookup.cache), [entry])
  }

  /** An example: `a` and `b` reported changed (though `b` kept its
      value), `c` untouched; `old` holds the prior `a` and `b`. */
  lemma OldValuesExample()
    ensures var original := map["a" := Text("1"), "b" := Text("2"), "c" := Text("3")];
            var changes := map["a" := Text("9"), "b" := Text("2")];
            OldValues("updated", original, changes) == map["a" := Text("1"), "b" := Text("2")]
            && OldValues("created", original, changes) == map[]
  {
  }
}

=== FILE: base.dfy ===
/** Small shared vocabulary: optional values, results, raw attribute values
    and the distinct-sequence facts the seed tables rely on. */
module Base {

  /** PHP's nullable values. */
  datatype Option<+T> = None | Some(value: T) {
    function GetOr(default: T): T {
      match this
      case Some(v) => v
      case None => default
    }
  }

  /** A computation that either succeeds or stops with an error message. */
  datatype Result<+T> = Ok(value: T) | Err(message: string)

  /** A raw column value of an Eloquent model: the stored text, or NULL. */
  datatype Value = Null | Text(text: string)

  /** Seconds on the cache clock. */
  type Time = int

  /** The elements of a sequence, as a set. */
  function ToSet<T>(s: seq<T>): set<T> {
    set x | x in s
  }

  /** No element occurs twice. */
  predicate Distinct<T(==)>(s: seq<T>) {
    forall i, j | 0 <= i < j < |s| :: s[i] != s[j]
  }

  /** A sequence without repetitions has as many distinct elements as entries. */
  lemma {:induction false} DistinctCardinality<T>(s: seq<T>)
    requires Distinct(s)
    ensures |ToSet(s)| == |s|
  {
    if |s| > 0 {
      var init := s[..|s| - 1];
      var last := s[|s| - 1];
      assert Distinct(init);
      DistinctCardinality(init);
      assert last !in ToSet(init);
      assert ToSet(s) == ToSet(init) + {last} by {
        assert s == init + [last];
      }
    }
  }
}

=== FILE: cache_keys.dfy ===
/** The text of the keys the activity logger writes into the one shared
    application cache. Throttle marks live under "access_log_throttle:{id}" and
    device records under "device_details:{digest}:{auth|anon}", where the digest
    is the MD5 of the user agent. The lemmas here show that the key text keeps
    the throttle marks, the authenticated device records and the anonymous
    device records in three disjoint namespaces, so the rest of the model may
    keep them in separate, typed stores. */
module CacheKeys {

  /** Whether device detection was skipped (authenticated request) or not. */
  datatype Mode = Auth | Anon

  const ThrottlePrefix: string := "access_log_throttle:"
  const DevicePrefix: string := "device_details:"

  function ThrottleKeyText(userId: string): string {
    ThrottlePrefix + userId
  }

  function ModeTag(m: Mode): string {
    match m
    case Auth => "auth"
    case Anon => "anon"
  }

  /** The device key for a user-agent digest and a detection mode. */
  function DeviceKeyText(digest: string, m: Mode): string {
    DevicePrefix + digest + ":" + ModeTag(m)
  }

  /** Two users share a throttle key only if they are the same user. */
  lemma {:induction false} ThrottleKeyInjective(a: string, b: string)
    ensures ThrottleKeyText(a) == ThrottleKeyText(b) <==> a == b
  {
    if ThrottleKeyText(a) == ThrottleKeyText(b) {
      assert a == ThrottleKeyText(a)[|ThrottlePrefix|..];
      assert b == ThrottleKeyText(b)[|ThrottlePrefix|..];
    }
  }

  /** No throttle mark can ever be read back as a device record, or the reverse. */
  lemma NamespacesDisjoint(userId: string, digest: string, m: Mode)
    ensures ThrottleKeyText(userId) != DeviceKeyText(digest, m)
  {
    assert ThrottleKeyText(userId)[0] == 'a';
    assert DeviceKeyText(digest, m)[0] == 'd';
  }

  /** Device keys determine their digest and their mode. In particular the
      authenticated and the anonymous record of one user agent never share an
      entry, whatever the digest function is. */
  lemma {:induction false} DeviceKeyInjective(d1: string, m1: Mode, d2: string, m2: Mode)
    ensures DeviceKeyText(d1, m1) == DeviceKeyText(d2, m2) <==> d1 == d2 && m1 == m2
  {
    var k1 := DeviceKeyText(d1, m1);
    var k2 := DeviceKeyText(d2, m2);
    if k1 == k2 {
      assert |d1| == |d2|;
      var n := |DevicePrefix|;
      assert d1 == k1[n..n + |d1|];
      assert d2 == k2[n..n + |d2|];
      assert ModeTag(m1) == k1[|k1| - 4..];
      assert ModeTag(m2) == k2[|k2| - 4..];
      assert ModeTag(m1)[1] == ModeTag(m2)[1];
    }
  }
}

=== FILE: device.dfy ===
/** Device details attached to every log entry, memoised per (user agent,
    detection mode) for 24 hours. Authenticated requests skip detection and get a
    fixed "unknown, not a bot" record; anonymous requests go through the
    device-detection library, which is a parameter `parse` here. */
module Device {
  import opened Base
  import opened TtlCache
  import opened CacheKeys

  /** What the device-detection library reports for one user agent. */
  datatype Parsed = Parsed(
    isBot: bool,
    botName: Option<string>,
    botCategory: Option<string>,
    deviceName: Option<string>,
    brand: Option<string>,
    model: Option<string>,
    os: Option<string>,
    client: Option<string>)

  /** The `device` record stored in the cache and in log properties. */
  datatype DeviceDetails = DeviceDetails(
    ip: string,
    userAgent: string,
    isBot: bool,
    botName: Option<string>,
    botCategory: Option<string>,
    deviceName: Option<string>,
    brand: Option<string>,
    model: Option<string>,
    os: Option<string>,
    client: Option<string>)

  /** 24 hours. */
  const DeviceCacheTtl: Ttl := 86400

  /** Stands in for a request that carries no User-Agent header. */
  const UnknownUserAgent: string := "Unknown"

  /** The cache key: the user agent (standing for its digest) and the mode. */
  datatype DeviceKey = DeviceKey(userAgent: string, mode: Mode)

  type DeviceCache = Store<DeviceKey, DeviceDetails>

  function ModeOf(skipBotDetection: bool): Mode {
    if skipBotDetection then Auth else Anon
  }

  function KeyFor(userAgent: string, skipBotDetection: bool): DeviceKey {
    DeviceKey(userAgent, ModeOf(skipBotDetection))
  }

  /** The record built without running detection. */
  function SkipDetection(userAgent: string, ip: string): DeviceDetails {
    DeviceDetails(ip, userAgent, false, None, None, Some("Unknown"), None, None, None, None)
  }

  /** The record built from the detection library's answer; the library hands
      back the user agent it was given. */
  function FromParse(userAgent: string, p: Parsed, ip: string): DeviceDetails {
    DeviceDetails(ip, userAgent, p.isBot, p.botName, p.botCategory,
                  p.deviceName, p.brand, p.model, p.os, p.client)
  }

  /** What a cache miss computes for a user agent in a mode, at client address `ip`. */
  function Detect(userAgent: string, m: Mode, ip: string, parse: string -> Parsed): DeviceDetails {
    match m
    case Auth => SkipDetection(userAgent, ip)
    case Anon => FromParse(userAgent, parse(userAgent), ip)
  }

  /** The shape of a skip-detection record, independent of how it was built:
      not a bot, the given user agent, device "Unknown", everything else null. */
  predicate IsSkipRecord(d: DeviceDetails, userAgent: string) {
    && !d.isBot
    && d.userAgent == userAgent
    && d.deviceName == Some("Unknown")
    && d.botName == None && d.botCategory == None
    && d.brand == None && d.model == None && d.os == None && d.client == None
  }

  /** Every cached record is what a miss would have computed for its key,
      except for the client address, which is that of the request that filled it. */
  ghost predicate Coherent(c: DeviceCache, parse: string -> Parsed) {
    forall k | k in c :: c[k].value == Detect(k.userAgent, k.mode, c[k].value.ip, parse)
  }

  /** The record returned, the cache afterwards, and whether the detection
      library was run. */
  datatype Lookup = Lookup(details: DeviceDetails, cache: DeviceCache, parsed: bool)

  /** `getCachedDeviceDetails`. */
  function GetCachedDeviceDetails(c: DeviceCache, now: Time, userAgent: string, skipBotDetection: bool,
                                  ip: string, parse: string -> Parsed): (r: Lookup)
    ensures Live(c, KeyFor(userAgent, skipBotDetection), now) ==>
              r.details == c[KeyFor(userAgent, skipBotDetection)].value && r.cache == c && !r.parsed
    ensures !Live(c, KeyFor(userAgent, skipBotDetection), now) ==>
              && r.details == Detect(userAgent, ModeOf(skipBotDetection), ip, parse)
              && r.cache == Put(c, KeyFor(userAgent, skipBotDetection), r.details, DeviceCacheTtl, now)
              && (r.parsed <==> !skipBotDetection)
    ensures Live(r.cache, KeyFor(userAgent, skipBotDetection), now)
    ensures r.cache[KeyFor(userAgent, skipBotDetection)].value == r.details
    ensures SameElsewhere(c, r.cache, KeyFor(userAgent, skipBotDetection))
    ensures Coherent(c, parse) ==> Coherent(r.cache, parse)
    ensures Coherent(c, parse) && skipBotDetection ==> IsSkipRecord(r.details, userAgent)
  {
    var key := KeyFor(userAgent, skipBotDetection);
    var recall := Remember(c, key, DeviceCacheTtl, now, Detect(userAgent, key.mode, ip, parse));
    Lookup(recall.value, recall.store, recall.computed && !skipBotDetection)
  }

  /** `getDeviceDetails`: a missing User-Agent header reads as "Unknown"; an
      authenticated request skips detection. */
  function GetDeviceDetails(c: DeviceCache, now: Time, userAgentHeader: Option<string>,
                            authenticated: bool, ip: string, parse: string -> Parsed): (r: Lookup)
    ensures Coherent(c, parse) ==> Coherent(r.cache, parse)
    ensures Coherent(c, parse) ==>
              r.details.userAgent == (if userAgentHeader.Some? then userAgentHeader.value else UnknownUserAgent)
    ensures Coherent(c, parse) && authenticated ==>
              IsSkipRecord(r.details, userAgentHeader.GetOr(UnknownUserAgent))
    ensures r.parsed ==> !authenticated
    ensures SameElsewhere(c, r.cache, KeyFor(userAgentHeader.GetOr(UnknownUserAgent), authenticated))
  {
    GetCachedDeviceDetails(c, now, userAgentHeader.GetOr(UnknownUserAgent), authenticated, ip, parse)
  }

  /** Within one request (same instant, same client), a second lookup of the
      same user agent is a hit on the record the first lookup left behind. */
  lemma LookupAgainSameInstant(c: DeviceCache, now: Time, userAgentHeader: Option<string>,
                               authenticated: bool, ip: string, parse: string -> Parsed)
    ensures var first := GetDeviceDetails(c, now, userAgentHeader, authenticated, ip, parse);
            GetDeviceDetails(first.cache, now, userAgentHeader, authenticated, ip, parse)
              == Lookup(first.details, first.cache, false)
  {
    RepeatLookupHits(c, now, now, userAgentHeader.GetOr(UnknownUserAgent), authenticated, ip, ip, parse);
  }

  /** A second lookup of the same user agent and mode while the first record is
      live returns the identical record (client address included), runs no
      detection and leaves the cache alone, whatever client asks. */
  lemma RepeatLookupHits(c: DeviceCache, t1: Time, t2: Time, userAgent: string, skipBotDetection: bool,
                         ip1: string, ip2: string, parse: string -> Parsed)
    requires Live(GetCachedDeviceDetails(c, t1, userAgent, skipBotDetection, ip1, parse).cache,
                  KeyFor(userAgent, skipBotDetection), t2)
    ensures var first := GetCachedDeviceDetails(c, t1, userAgent, skipBotDetection, ip1, parse);
            GetCachedDeviceDetails(first.cache, t2, userAgent, skipBotDetection, ip2, parse)
              == Lookup(first.details, first.cache, false)
  {
  }

  /** A record computed on a miss is served for exactly the next 24 hours, so
      the detection library runs at most once per (user agent, mode) in that window. */
  lemma MissServedForTtl(c: DeviceCache, t1: Time, t2: Time, userAgent: string, skipBotDetection: bool,
                         ip1: string, ip2: string, parse: string -> Parsed)
    requires !Live(c, KeyFor(userAgent, skipBotDetection), t1)
    requires t1 <= t2 < t1 + DeviceCacheTtl
    ensures var first := GetCachedDeviceDetails(c, t1, userAgent, skipBotDetection, ip1, parse);
            var second := GetCachedDeviceDetails(first.cache, t2, userAgent, skipBotDetection, ip2, parse);
            !second.parsed && second.details == first.details
  {
  }

  /** A lookup in one mode never touches the record of the other mode for the
      same user agent. */
  lemma ModesKeptApart(c: DeviceCache, now: Time, userAgent: string, skipBotDetection: bool,
                       ip: string, parse: string -> Parsed)
    ensures var other := DeviceKey(userAgent, ModeOf(!skipBotDetection));
            var r := GetCachedDeviceDetails(c, now, userAgent, skipBotDetection, ip, parse);
            (other in r.cache <==> other in c) && (other in c ==> r.cache[other] == c[other])
  {
  }
}

=== FILE: models.dfy ===
/** What the activity logger and the observer read from an Eloquent model at
    the moment a lifecycle hook fires: the current attributes, the attributes as
    they were before the pending save, the attributes that save changed, and
    whether a permanent delete is in progress. */
module Models {
  import opened Base

  datatype Model = Model(
    morphClass: string,
    key: string,
    attributes: map<string, Value>,
    original: map<string, Value>,
    changes: map<string, Value>,
    forceDeleting: bool)

  /** `$model->name`: an attribute the model does not hold reads as null. */
  function Attr(m: Model, name: string): Value {
    if name in m.attributes then m.attributes[name] else Null
  }

  /** `$model->wasChanged(name)`. */
  predicate WasChanged(m: Model, name: string) {
    name in m.changes
  }

  /** A value interpolated into a PHP string: null becomes the empty string. */
  function Interpolate(v: Value): string {
    match v
    case Null => ""
    case Text(t) => t
  }
}

=== FILE: seeder.dfy ===
/** The role and permission seed data: three roles, eleven permissions, the
    grants of each role, and the role given to each of the three seeded
    accounts. Together with the panel-access check it fixes who can open which
    panel on a freshly seeded installation. */
module RolePermissionSeeder {
  import opened Base
  import opened User

  const AdminRole: string := "Admin"
  const CitizenRole: string := "Citizen"

  /** The roles, in creation order. */
  const Roles: seq<string> := [SuperAdminRole, AdminRole, CitizenRole]

  const AccessSuperAdminPanel: string := "access_super_admin_panel"

  /** The panel-access permissions, in creation order. */
  const PanelAccessPermissions: seq<string> :=
    [AccessSuperAdminPanel, AccessAdminPanel, AccessCitizenPanel]

  /** The user-management permissions, in creation order. */
  const UserPermissions: seq<string> :=
    ["view_any_users", "create_users", "update_users", "view_users",
     "delete_users", "delete_any_users", "force_delete_users", "force_delete_any_users"]

  /** Every permission the seeder creates. */
  const Permissions: seq<string> := PanelAccessPermissions + UserPermissions

  /** The permissions given to each role; Super Admin receives every permission
      that exists once the permissions above have been created. */
  function Grants(role: string): set<string> {
    if role == SuperAdminRole then ToSet(Permissions)
    else if role == AdminRole then {AccessAdminPanel, "view_any_users", "view_users"}
    else if role == CitizenRole then {AccessCitizenPanel}
    else {}
  }

  /** What `can` answers for a user holding `roles` and no direct permissions. */
  function RolePermissions(roles: set<string>): set<string> {
    set r, p | r in roles && p in Grants(r) :: p
  }

  /** The seeded accounts and the role each receives. */
  const SeededAccounts: seq<(string, string)> :=
    [("superadmin@example.com", SuperAdminRole),
     ("admin@example.com", AdminRole),
     ("ciudadano@example.com", CitizenRole)]

  /** The roles a list of assignments gives to one email. */
  function AssignedTo(assignments: seq<(string, string)>, email: string): set<string> {
    set i | 0 <= i < |assignments| && assignments[i].0 == email :: assignments[i].1
  }

  /** Looks up each email and assigns it its role, in order. An email with no
      account makes the lookup return null and the seeder stop with an error. */
  function AssignRoles(assignments: seq<(string, string)>, users: map<string, set<string>>)
    : (r: Result<map<string, set<string>>>)
    ensures r.Ok? <==> forall i | 0 <= i < |assignments| :: assignments[i].0 in users
    ensures r.Ok? ==> r.value.Keys == users.Keys
    ensures r.Ok? ==> forall e | e in users :: r.value[e] == users[e] + AssignedTo(assignments, e)
    decreases |assignments|
  {
    if |assignments| == 0 then
      assert forall e :: AssignedTo(assignments, e) == {};
      Ok(users)
    else
      var (email, role) := assignments[0];
      if email !in users then Err("Call to a member function assignRole() on null")
      else
        AssignedSplit(assignments);
        AssignRoles(assignments[1..], users[email := users[email] + {role}])
  }

  /** The roles of a list of assignments are those of its head plus those of its tail. */
  lemma AssignedSplit(assignments: seq<(string, string)>)
    requires |assignments| > 0
    ensures forall e :: AssignedTo(assignments, e) ==
              (if assignments[0].0 == e then {assignments[0].1} else {}) + AssignedTo(assignments[1..], e)
  {
  }

  /** Exactly three distinct roles are created. */
  lemma ThreeRoles()
    ensures Distinct(Roles) && |ToSet(Roles)| == 3
  {
    DistinctCardinality(Roles);
  }

  /** Exactly eleven distinct permissions are created: three for panel access
      and eight for user management. */
  lemma ElevenPermissions()
    ensures |PanelAccessPermissions| == 3 && |UserPermissions| == 8
    ensures Distinct(Permissions) && |ToSet(Permissions)| == 11
  {
    DistinctCardinality(Permissions);
  }

  /** The grant table: Super Admin holds every created permission, Admin and
      Citizen hold exactly their listed ones, and no role holds a permission
      that was not created. */
  lemma GrantTable()
    ensures forall p :: p in Grants(SuperAdminRole) <==> p in Permissions
    ensures Grants(AdminRole) == {AccessAdminPanel, "view_any_users", "view_users"}
    ensures Grants(CitizenRole) == {AccessCitizenPanel}
    ensures forall r :: Grants(r) <= ToSet(Permissions)
  {
  }

  /** With the seeded grants: a Super Admin opens every panel, an Admin opens
      `admin` but not `citizen`, and a Citizen opens `citizen` but not `admin`. */
  lemma SeededPanelAccess(panelId: string)
    ensures CanAccessPanel({SuperAdminRole}, RolePermissions({SuperAdminRole}), panelId)
    ensures CanAccessPanel({AdminRole}, RolePermissions({AdminRole}), AdminPanel)
    ensures !CanAccessPanel({AdminRole}, RolePermissions({AdminRole}), CitizenPanel)
    ensures CanAccessPanel({CitizenRole}, RolePermissions({CitizenRole}), CitizenPanel)
    ensures !CanAccessPanel({CitizenRole}, RolePermissions({CitizenRole}), AdminPanel)
  {
    assert RolePermissions({AdminRole}) == Grants(AdminRole);
    assert RolePermissions({CitizenRole}) == Grants(CitizenRole);
  }

  /** Seeding three role-less accounts gives each seeded email exactly its
      role, with the panel access that follows. */
  lemma SeededAccountsRoles(users: map<string, set<string>>)
    requires "superadmin@example.com" in users && users["superadmin@example.com"] == {}
    requires "admin@example.com" in users && users["admin@example.com"] == {}
    requires "ciudadano@example.com" in users && users["ciudadano@example.com"] == {}
    ensures AssignRoles(SeededAccounts, users).Ok?
    ensures var seeded := AssignRoles(SeededAccounts, users).value;
            && seeded["superadmin@example.com"] == {SuperAdminRole}
            && seeded["admin@example.com"] == {AdminRole}
            && seeded["ciudadano@example.com"] == {CitizenRole}
    ensures var seeded := AssignRoles(SeededAccounts, users).value;
            var admin, citizen := seeded["admin@example.com"], seeded["ciudadano@example.com"];
            && (forall panelId :: CanAccessPanel(seeded["superadmin@example.com"],
                                                 RolePermissions(seeded["superadmin@example.com"]), panelId))
            && CanAccessPanel(admin, RolePermissions(admin), AdminPanel)
            && !CanAccessPanel(admin, RolePermissions(admin), CitizenPanel)
            && CanAccessPanel(citizen, RolePermissions(citizen), CitizenPanel)
            && !CanAccessPanel(citizen, RolePermissions(citizen), AdminPanel)
  {
    SeededAssignments();
    var seeded := AssignRoles(SeededAccounts, users).value;
    assert seeded["superadmin@example.com"] == {SuperAdminRole};
    assert seeded["admin@example.com"] == {AdminRole};
    assert seeded["ciudadano@example.com"] == {CitizenRole};
    SeededPanelAccess(AdminPanel);
  }

  /** The seed list gives each seeded email exactly one role. */
  lemma SeededAssignments()
    ensures forall i | 0 <= i < |SeededAccounts| :: SeededAccounts[i].0 in
              {"superadmin@example.com", "admin@example.com", "ciudadano@example.com"}
    ensures AssignedTo(SeededAccounts, "superadmin@example.com") == {SuperAdminRole}
    ensures AssignedTo(SeededAccounts, "admin@example.com") == {AdminRole}
    ensures AssignedTo(SeededAccounts, "ciudadano@example.com") == {CitizenRole}
  {
    assert SeededAccounts[0].0 == "superadmin@example.com";
    assert SeededAccounts[1].0 == "admin@example.com";
    assert SeededAccounts[2].0 == "ciudadano@example.com";
  }
}

=== FILE: ttl_cache.dfy ===
/** The application cache as a key-value store whose entries carry an expiry
    instant. An entry is visible ("live") while the clock is strictly before its
    expiry; `put` overwrites and restarts the window; `remember` returns a live
    entry untouched and otherwise stores a freshly computed value. */
module TtlCache {
  import opened Base

  datatype Entry<V> = Entry(value: V, expiresAt: Time)

  type Store<K, V> = map<K, Entry<V>>

  /** A time-to-live in seconds; the application only uses positive constants. */
  type Ttl = t: int | t > 0 witness 1

  /** `Cache::has`: the key holds an entry that has not yet expired. */
  predicate Live<K, V>(s: Store<K, V>, k: K, now: Time) {
    k in s && now < s[k].expiresAt
  }

  /** Every key other than `k` maps to the same entry (or is absent) in both stores. */
  ghost predicate SameElsewhere<K, V>(s: Store<K, V>, s': Store<K, V>, k: K) {
    s - {k} == s' - {k}
  }

  /** `Cache::put(k, v, ttl)` at time `now`. */
  function Put<K, V>(s: Store<K, V>, k: K, v: V, ttl: Ttl, now: Time): (r: Store<K, V>)
    ensures k in r && r[k].value == v
    ensures forall t :: Live(r, k, t) <==> t < now + ttl
    ensures SameElsewhere(s, r, k)
  {
    s[k := Entry(v, now + ttl)]
  }

  /** What `remember` hands back: the value, the store afterwards, and whether
      the value had to be computed. */
  datatype Recall<K, V> = Recall(value: V, store: Store<K, V>, computed: bool)

  /** `Cache::remember(k, ttl, compute)`, with `computedValue` the value `compute` would
      produce; it is used only on a miss. */
  function Remember<K, V>(s: Store<K, V>, k: K, ttl: Ttl, now: Time, computedValue: V): (r: Recall<K, V>)
    ensures r.computed <==> !Live(s, k, now)
    ensures !r.computed ==> r.value == s[k].value && r.store == s
    ensures r.computed ==> r.value == computedValue && r.store == Put(s, k, computedValue, ttl, now)
    ensures Live(r.store, k, now) && r.store[k].value == r.value
    ensures SameElsewhere(s, r.store, k)
  {
    if Live(s, k, now) then Recall(s[k].value, s, false)
    else Recall(computedValue, Put(s, k, computedValue, ttl, now), true)
  }

  /** A second `remember` of the same key while the first result is still live
      returns the same value, leaves the store as it was and computes nothing,
      whatever the second computation would have produced. */
  lemma RememberAgainHits<K, V>(s: Store<K, V>, k: K, ttl: Ttl, now: Time, computedValue: V,
                               later: Time, other: V)
    requires Live(Remember(s, k, ttl, now, computedValue).store, k, later)
    ensures var first := Remember(s, k, ttl, now, computedValue);
            Remember(first.store, k, ttl, later, other) == Recall(first.value, first.store, false)
  {
  }

  /** A value stored on a miss stays live for exactly `ttl` seconds. */
  lemma RememberedLiveForTtl<K, V>(s: Store<K, V>, k: K, ttl: Ttl, now: Time, computedValue: V, later: Time)
    requires !Live(s, k, now)
    ensures Live(Remember(s, k, ttl, now, computedValue).store, k, later) <==> later < now + ttl
  {
  }
}

=== FILE: user.dfy ===
/** The user model's two pure accessors: the panel-access check and the avatar
    URL. Role membership and permission checks are supplied as sets: `roles`
    holds the user's role names and `permissions` every permission `can` grants. */
module User {
  import opened Base
  import opened Models

  const SuperAdminRole: string := "Super Admin"

  const AdminPanel: string := "admin"
  const CitizenPanel: string := "citizen"

  const AccessAdminPanel: string := "access_admin_panel"
  const AccessCitizenPanel: string := "access_citizen_panel"

  /** `canAccessPanel`: Super Admins open every panel; anyone else needs the
      panel's access permission, and panels other than `admin` and `citizen`
      are closed to them. */
  function CanAccessPanel(roles: set<string>, permissions: set<string>, panelId: string): (r: bool)
    ensures r <==> SuperAdminRole in roles
                   || (PanelPermission(panelId).Some? && PanelPermission(panelId).value in permissions)
  {
    if SuperAdminRole in roles then true
    else if panelId == AdminPanel then AccessAdminPanel in permissions
    else if panelId == CitizenPanel then AccessCitizenPanel in permissions
    else false
  }

  /** The permission that opens a panel to a user who is not a Super Admin. */
  function PanelPermission(panelId: string): Option<string> {
    if panelId == AdminPanel then Some(AccessAdminPanel)
    else if panelId == CitizenPanel then Some(AccessCitizenPanel)
    else None
  }

  /** Whatever permissions a non-Super-Admin holds, only `admin` and `citizen`
      can ever open for them, and each only through its own permission. */
  lemma OnlyKnownPanels(roles: set<string>, permissions: set<string>, panelId: string)
    requires SuperAdminRole !in roles
    requires CanAccessPanel(roles, permissions, panelId)
    ensures panelId == AdminPanel || panelId == CitizenPanel
    ensures panelId == AdminPanel ==> AccessAdminPanel in permissions
    ensures panelId == CitizenPanel ==> AccessCitizenPanel in permissions
  {
  }

  /** `getFilamentAvatarUrl`: the stored profile picture, or null when none is set. */
  function AvatarUrl(m: Model): (r: Option<string>)
    ensures r.None? <==> Attr(m, "profile_picture") == Null
    ensures r.Some? ==> Attr(m, "profile_picture") == Text(r.value)
  {
    match Attr(m, "profile_picture")
    case Null => None
    case Text(url) => Some(url)
  }
}

=== FILE: user_observer.dfy ===
/** The user model's lifecycle observer: each hook makes at most one call to
    the activity logger's `default` entry point. Two guards keep a restore and a
    permanent delete from being logged twice: the save inside a restore fires
    `updated` (suppressed), and the delete inside a force delete fires `deleted`
    while the model is flagged as force-deleting (suppressed). */
module UserObserver {
  import opened Base
  import opened Models
  import opened Device
  import opened ActivityLogger

  datatype Hook = Created | Updated | Deleted | Restored | ForceDeleted

  /** One call `default(event, message, model)`. */
  datatype Call = Call(event: string, message: string, model: Model)

  /** The event name each hook reports. */
  function EventName(h: Hook): string {
    match h
    case Created => "created"
    case Updated => "updated"
    case Deleted => "deleted"
    case Restored => "restored"
    case ForceDeleted => "force_deleted"
  }

  /** The message each hook writes before the user's name. */
  function MessagePrefix(h: Hook): string {
    match h
    case Created => "nuevo usuario: "
    case Updated => "usuario actualizado: "
    case Deleted => "usuario eliminado: "
    case Restored => "usuario restaurado: "
    case ForceDeleted => "usuario eliminado permanentemente: "
  }

  /** `{$user->name}`. */
  function Name(m: Model): string {
    Interpolate(Attr(m, "name"))
  }

  /** The save performed by a restore: `deleted_at` changed and is now null. */
  predicate IsRestoreSave(m: Model) {
    WasChanged(m, "deleted_at") && Attr(m, "deleted_at") == Null
  }

  /** The logger call a hook makes, if any. */
  function Observe(h: Hook, m: Model): (r: Option<Call>)
    ensures r.None? <==> (h == Updated && IsRestoreSave(m)) || (h == Deleted && m.forceDeleting)
    ensures r.Some? ==> r.value == Call(EventName(h), MessagePrefix(h) + Name(m), m)
  {
    match h
    case Created => Some(Call("created", "nuevo usuario: " + Name(m), m))
    case Updated =>
      if IsRestoreSave(m) then None
      else Some(Call("updated", "usuario actualizado: " + Name(m), m))
    case Deleted =>
      if m.forceDeleting then None
      else Some(Call("deleted", "usuario eliminado: " + Name(m), m))
    case Restored => Some(Call("restored", "usuario restaurado: " + Name(m), m))
    case ForceDeleted => Some(Call("force_deleted", "usuario eliminado permanentemente: " + Name(m), m))
  }

  /** Each hook reports its own event: an entry's event name tells which hook wrote it. */
  lemma EventNamesDistinct(h1: Hook, h2: Hook)
    ensures EventName(h1) == EventName(h2) <==> h1 == h2
  {
  }

  /** The logger calls of one hook, as a sequence of length zero or one. */
  function CallsOf(h: Hook, m: Model): seq<Call> {
    match Observe(h, m)
    case None => []
    case Some(call) => [call]
  }

  /** The logger calls a sequence of hooks makes, in order. */
  function Calls(hooks: seq<(Hook, Model)>): (calls: seq<Call>)
    ensures |calls| <= |hooks|
    ensures (forall i | 0 <= i < |hooks| :: Observe(hooks[i].0, hooks[i].1).Some?) ==> |calls| == |hooks|
  {
    if |hooks| == 0 then []
    else CallsOf(hooks[0].0, hooks[0].1) + Calls(hooks[1..])
  }

  /** The entry `default` writes for a call: the call's event and message, the
      acting user as causer, the observed user as subject, and the user's
      current attributes with, for `updated`, the prior values of the changed
      ones. Only the device record depends on the cache. */
  predicate Records(e: LogEntry, call: Call, user: Option<UserId>, now: Time) {
    && e.channel == DefaultChannel
    && e.event == Some(call.event)
    && e.description == call.message
    && e.causer == user
    && e.subject == Some(SubjectRef(call.model.morphClass, call.model.key))
    && e.at == now
    && e.properties.EntityProperties?
    && e.properties.attributes == call.model.attributes
    && e.properties.oldValues == OldValues(call.event, call.model.original, call.model.changes)
  }

  /** Under the cache invariant, an entry's device record is what detection
      gives for the request's user agent in the request's mode. */
  ghost predicate DeviceFits(e: LogEntry, user: Option<UserId>, req: Request, parse: string -> Parsed) {
    var ua := req.userAgent.GetOr(UnknownUserAgent);
    e.properties.device == Detect(ua, ModeOf(user.Some?), e.properties.device.ip, parse)
  }

  /** One hook, routed through `default`. */
  function Dispatch(c: Cache, now: Time, user: Option<UserId>, req: Request, h: Hook, m: Model,
                    parse: string -> Parsed): (r: Step)
    ensures |r.emitted| == |CallsOf(h, m)|
    ensures forall i | 0 <= i < |r.emitted| :: Records(r.emitted[i], CallsOf(h, m)[i], user, now)
    ensures Valid(c, parse) ==> forall i | 0 <= i < |r.emitted| :: DeviceFits(r.emitted[i], user, req, parse)
    ensures r.cache.throttle == c.throttle
    ensures Valid(c, parse) ==> Valid(r.cache, parse)
    ensures CallsOf(h, m) == [] ==> r == Step(c, [])
    ensures var lookup := GetDeviceDetails(c.devices, now, req.userAgent, user.Some?, req.ip, parse);
            CallsOf(h, m) != [] ==>
              r.cache.devices == lookup.cache && r.emitted[0].properties.device == lookup.details
  {
    match Observe(h, m)
    case None => Step(c, [])
    case Some(call) => LogDefault(c, now, user, req, call.event, call.message, call.model, parse)
  }

  /** A sequence of hooks fired within one request, each routed through
      `default`: one `default`-channel entry per logger call, in order, and the
      throttle marks left alone. */
  function Fire(c: Cache, now: Time, user: Option<UserId>, req: Request, hooks: seq<(Hook, Model)>,
                parse: string -> Parsed): (r: Step)
    ensures |r.emitted| == |Calls(hooks)|
    ensures forall i | 0 <= i < |r.emitted| :: Records(r.emitted[i], Calls(hooks)[i], user, now)
    ensures Valid(c, parse) ==> forall i | 0 <= i < |r.emitted| :: DeviceFits(r.emitted[i], user, req, parse)
    ensures r.cache.throttle == c.throttle
    ensures Valid(c, parse) ==> Valid(r.cache, parse)
    ensures Calls(hooks) == [] ==> r.cache == c
    ensures var lookup := GetDeviceDetails(c.devices, now, req.userAgent, user.Some?, req.ip, parse);
            Calls(hooks) != [] ==>
              && r.cache.devices == lookup.cache
              && forall i | 0 <= i < |r.emitted| :: r.emitted[i].properties.device == lookup.details
    decreases |hooks|
  {
    if |hooks| == 0 then Step(c, [])
    else
      var first := Dispatch(c, now, user, req, hooks[0].0, hooks[0].1, parse);
      var rest := Fire(first.cache, now, user, req, hooks[1..], parse);
      assert Calls(hooks) == CallsOf(hooks[0].0, hooks[0].1) + Calls(hooks[1..]);
      LookupAgainSameInstant(c.devices, now, req.userAgent, user.Some?, req.ip, parse);
      Step(rest.cache, first.emitted + rest.emitted)
  }

  /** An ordinary update is logged once, against the updated user, with the
      prior values of exactly the attributes it changed. */
  lemma UpdateLoggedWithPriorValues(c: Cache, now: Time, user: Option<UserId>, req: Request,
                                    m: Model, parse: string -> Parsed)
    requires !IsRestoreSave(m)
    ensures var r := Fire(c, now, user, req, [(Updated, m)], parse);
            && |r.emitted| == 1
            && r.emitted[0].subject == Some(SubjectRef(m.morphClass, m.key))
            && r.emitted[0].properties.EntityProperties?
            && r.emitted[0].properties.attributes == m.attributes
            && r.emitted[0].properties.oldValues == OldValues("updated", m.original, m.changes)
  {
  }

  /** A restore (its save fires `updated`, then `restored` fires) is logged
      exactly once, as `restored`. */
  lemma RestoreLoggedOnce(c: Cache, now: Time, user: Option<UserId>, req: Request,
                          saved: Model, restored: Model, parse: string -> Parsed)
    requires IsRestoreSave(saved)
    ensures var r := Fire(c, now, user, req, [(Updated, saved), (Restored, restored)], parse);
            |r.emitted| == 1 && r.emitted[0].event == Some("restored")
  {
  }

  /** A permanent delete (`deleted` fires while force-deleting, then
      `forceDeleted`) is logged exactly once, as `force_deleted`. */
  lemma ForceDeleteLoggedOnce(c: Cache, now: Time, user: Option<UserId>, req: Request,
                              deleting: Model, deleted: Model, parse: string -> Parsed)
    requires deleting.forceDeleting
    ensures var r := Fire(c, now, user, req, [(Deleted, deleting), (ForceDeleted, deleted)], parse);
            |r.emitted| == 1 && r.emitted[0].event == Some("force_deleted")
  {
  }
}
